=== FILE: README.md ===
# Memory card game — verified model of the game core

This project models the game logic of the Memory card game (`Memory.py`). The game is a 4x4 board of sixteen cards showing eight fruit faces, two cards per face. The player turns cards over two at a time. Two equal faces stay up as a matched pair, and two different faces are turned back. The game is won when all sixteen cards are matched. The score is the number of attempts (pairs turned over). It is appended to a high-score log as a `name:score` line. The leaderboard is the five lowest scores read back from that log.

Modules:

- `Wrappers`: the `Option` type (Python's `None` or a value).
- `Deck`: the face values `list(range(8)) * 2` and `random.shuffle`, written as an in-place Fisher-Yates pass over an array. Also `create_cards`. `IsDeck` says that every face 0..7 lies on exactly two cards.
- `ScoreText`: the text of one log line. It models `str(n)`, `str.strip()`, `str.split(":")` and `int()` as Python defines them for these inputs. It also holds the line written by `save_highscore` and the way `load_highscores` reads one line back: skipped, an entry, or an exception.
- `HighScores`: the log as a class holding the sequence of its lines. `SaveHighscore` appends one line. `LoadHighscores` is the reading loop, followed by a stable sort by score and the first five entries. `Ranked` is the function that specifies `LoadHighscores`.
- `Game`: the `MemoryGame` class, with these fields:
  - the board;
  - the selected cards;
  - the face-up cards;
  - the matched set;
  - the player's name;
  - the attempt and flip counters;
  - the high-score log.

  Its methods are:
  - `reset_game_data`;
  - the name check of the start button;
  - `flip_card`;
  - `check_match`;
  - the scoring part of `show_winner`.

  The invariant `Consistent` ties the turn state together:
  - at most two different cards are selected;
  - the face-up list holds exactly the selected and the matched cards, each once;
  - matched cards come in pairs of equal faces;
  - `total_flips` is twice the number of attempts, plus one while a turn is half done.

`flip_card` awaits `check_match` once a second card is selected. Here that is two steps:
- `FlipCard` returns `pending` when a pair is selected;
- `CheckMatch` is the step the caller then runs.

Because a third card is refused while two are selected, the pauses in between change nothing in the model.

## Model

| member | source | states |
|---|---|---|
| Deck.Range | Memory.py:46 | `list(range(n))` has length `n` and holds `i` at position `i` |
| Deck.FaceValues | Memory.py:46 | `list(range(8)) * 2` has sixteen cards, card `i` showing face `i % 8` |
| Deck.RangeCount | Memory.py:46 | `list(range(n))` holds each of 0..n-1 exactly once and no other value |
| Deck.FaceValuesCount | Memory.py:46 | `list(range(8)) * 2` holds each face 0..7 exactly twice and nothing else |
| Deck.DeckIsPermutation | Memory.py:46-48 | a board satisfies `IsDeck` exactly when it is a rearrangement of `list(range(8)) * 2`, both directions |
| Deck.DeckShape | Memory.py:45-48 | a board has sixteen cards, each showing a face in 0..7 |
| Deck.Shuffle | Memory.py:47 | the in-place shuffle leaves the array a permutation of what it held |
| Deck.CreateCards | Memory.py:45-48 | the new board has sixteen cards with each of the eight faces exactly twice |
| ScoreText.StripStart | Memory.py:110 | the leading part it drops is all spaces of the given kind, the rest is a suffix of the input and starts with a non-space |
| ScoreText.StripEnd | Memory.py:110 | the trailing part it drops is all spaces of the given kind, the rest is a prefix of the input and ends with a non-space |
| ScoreText.Trim | Memory.py:110 | what is left after dropping spaces at both ends starts and ends with a non-space; `TrimSplit` says it is the input without exactly its surrounding spaces |
| ScoreText.TrimSplit | Memory.py:110 | the input is a run of spaces, then the trimmed text, then a run of spaces: only the surrounding spaces are dropped, and the middle is kept in place and in order |
| ScoreText.StripStartSplit | Memory.py:110 | the input is a run of spaces followed by what `lstrip()` keeps |
| ScoreText.StripEndSplit | Memory.py:110 | the input is what `rstrip()` keeps followed by a run of spaces |
| ScoreText.TrimKeeps | Memory.py:110 | trimming only drops spaces: every character of the input is a space or is kept, and nothing else is kept |
| ScoreText.TrimTrimmed | Memory.py:110 | text whose ends are not spaces is left unchanged by trimming |
| ScoreText.Strip | Memory.py:110 | `str.strip()` returns text that starts and ends with a non-space, with every ':' of the input kept; `StripSplit` says it is the input without exactly its surrounding whitespace |
| ScoreText.StripSplit | Memory.py:110 | the input is whitespace, then `strip()` of it, then whitespace: inner characters, spaces included, all stay in place |
| ScoreText.StripTrimmed | Memory.py:110 | stripping text that neither starts nor ends with whitespace returns it unchanged |
| ScoreText.Split | Memory.py:294 | `split(":")` always returns at least one part |
| ScoreText.SplitCount | Memory.py:294 | `split(":")` gives one more part than the text has colons |
| ScoreText.SplitNoColon | Memory.py:294 | no part returned by `split(":")` contains a ':' |
| ScoreText.SplitJoin | Memory.py:294 | joining the parts of `split(":")` with ':' gives back the text |
| ScoreText.SplitAtOnlyColon | Memory.py:294 | text made of two colon-free pieces around one ':' splits into exactly those two pieces |
| ScoreText.NatToString | Memory.py:281 | `str(score)` is non-empty decimal digits, with no leading zero unless it is "0", denoting the score |
| ScoreText.ParseInt | Memory.py:295 | a string `int()` accepts holds only whitespace `int()` tolerates, digits and signs, and at least one digit; `ParseIntAccepts` and `ParseIntShape` give exactly which strings are accepted and the value, for digit strings of any length (CPython's 4300-digit limit is not modelled) |
| ScoreText.ParseIntAccepts | Memory.py:295 | whitespace, an optional `+` or `-`, at least one digit, whitespace: `int()` accepts it and returns the digits' value, negated after `-` (CPython also raises above 4300 digits, which the model does not) |
| ScoreText.ParseIntShape | Memory.py:295 | every string `int()` accepts has that form, so with `ParseIntAccepts` nothing else is accepted (`"5 5"` and `"+-5"` raise) |
| ScoreText.ParseSigned | Memory.py:295 | once the whitespace is gone, an accepted string is one optional sign followed only by digits, and ends with a digit |
| ScoreText.ParseSignedAccepts | Memory.py:295 | an optional sign followed by digits is read as the digits' value, negated after `-` |
| ScoreText.ParseSignedShape | Memory.py:295 | every string accepted once the whitespace is gone is an optional sign followed by at least one digit |
| ScoreText.StripStartPast | Memory.py:295 | whitespace in front of a non-space is exactly what is stripped at the start |
| ScoreText.StripEndPast | Memory.py:295 | whitespace after a non-space is exactly what is stripped at the end |
| ScoreText.TrimAround | Memory.py:295 | whitespace on both sides of text whose ends are not spaces is exactly what trimming drops |
| ScoreText.ParseIntOfString | Memory.py:281-295 | `int(str(n)) == n` for every non-negative score |
| ScoreText.ParseIntNegative | Memory.py:295 | `int()` reads a leading minus sign: `int("-" + str(n)) == -n` |
| ScoreText.SeparatorRejectedByInt | Memory.py:294-295 | for digits `d`, `str.strip()` removes a leading U+001C from `"\x1c" + d` but `int()` raises on it |
| ScoreText.SeparatorStripped | Memory.py:294 | `("\x1c" + d).strip() == d` for digits `d` |
| ScoreText.SeparatorNotInt | Memory.py:295 | `int("\x1c" + d)` raises for digits `d` |
| ScoreText.FormatLine | Memory.py:281 | the written line is the name, then a ':' that adds exactly one colon to those of the name, then exactly `str(score)` with no padding |
| ScoreText.FormattedScoreReadsBack | Memory.py:281-295 | `int()` reads the text after the name's colon back as the score |
| ScoreText.ParseLine | Memory.py:292-295 | a line is skipped exactly when it has no ':', and a line with two or more colons always raises |
| ScoreText.ParseOneColonLine | Memory.py:293-299 | a trimmed line with exactly one colon gives the entry `(name, int(text))` when `int()` accepts the text after the colon, and raises when it does not |
| ScoreText.ParseFormatRoundTrip | Memory.py:281-295 | reading back the line `name:score` gives the entry `(name, score)` when the name has no ':' and no leading whitespace |
| HighScores.Insert | Memory.py:296 | inserting into a score-sorted list keeps it sorted, adds exactly the new entry, and puts it before the entries it ties with |
| HighScores.SortByScore | Memory.py:296 | `sorted(..., key=score)` is ascending by score and a permutation of its input |
| HighScores.InsertWithScore | Memory.py:296 | inserting an entry leaves the order of the entries of every score unchanged, with the new one first among its ties |
| HighScores.SortIsStable | Memory.py:296 | the sort is stable: entries with equal scores keep their order in the log |
| HighScores.Take | Memory.py:296 | `s[:n]` is the prefix of `s` of length exactly `min(n, len(s))` |
| HighScores.ParseAll | Memory.py:290-295 | a successful read gives at most one entry per line, and a log without any ':' reads as no entries; `ParseAllIsEntries` says its records are the log's entries in file order |
| HighScores.ParseStep | Memory.py:292-295 | a line without ':' leaves the collected entries as they are; a line that gives an entry appends it after the earlier ones; the parse fails exactly when it had failed or the line raises |
| HighScores.ParseAllIsEntries | Memory.py:290-295 | a log that parses gives exactly the entries of its entry lines, in file order |
| HighScores.StepAppends | Memory.py:292-295 | a reading step that does not raise appends what the line gives, nothing for a skipped line |
| HighScores.Ranked | Memory.py:290-296 | a readable log yields at most five entries, in ascending order of score; which entries they are is stated by `RankedAreLowest` and `RankedKeepsLogOrder` |
| HighScores.MalformedLineFails | Memory.py:292-299 | one line that raises makes the whole parse fail, wherever it stands |
| HighScores.FailureHasMalformedLine | Memory.py:292-299 | a read fails only because some line of the log raises |
| HighScores.MalformedLineEmptiesRanking | Memory.py:292-299 | one line that raises empties the high-score table |
| HighScores.SortedSplit | Memory.py:296 | in a score-sorted list everything before a cut scores no more than everything after it |
| HighScores.RankedAreLowest | Memory.py:290-296 | the table holds `min(5, n)` of the `n` parsed entries, taken from them, and every entry left out scores at least as much as every entry shown |
| HighScores.WithScoreAppend | Memory.py:296 | picking the entries of one score distributes over concatenation |
| HighScores.RankedKeepsLogOrder | Memory.py:290-296 | for every score, the entries shown with it are the first entries with that score in log order |
| HighScores.ParseAllSnoc | Memory.py:292-295 | reading a log with one more line is one more step of the reading loop |
| HighScores.ColonlessLineSkipped | Memory.py:293 | a line without ':' anywhere in the log does not change the collected entries |
| HighScores.ColonlessLineIgnored | Memory.py:293-296 | a line without ':' anywhere in the log does not change the high-score table |
| HighScores.SavedLineReadBack | Memory.py:278-295 | after saving `name:score` with a colon-free name that does not start with whitespace (`start_game_from_button` only stores stripped names), reading gives the earlier entries followed by `(name, score)`, and a log that already failed to read still fails |
| HighScores.ColonInNameEmptiesRanking | Memory.py:278-299 | once a name with ':' is saved, every later read of the log gives an empty table, whatever is appended after |
| HighScores.HighscoreLog.SaveHighscore | Memory.py:278-283 | appends exactly the line `username:score` when the file can be opened; otherwise the log is unchanged and the error is reported |
| HighScores.HighscoreLog.LoadHighscores | Memory.py:285-299 | returns `Ranked` of the log's lines when the file can be read, and an empty list otherwise |
| Game.Without | Memory.py:143 | the filtered list is no longer than the face-up list and holds only its cards that are not in the pair turned back |
| Game.WithoutCounts | Memory.py:143 | the filtered list holds no dropped card and keeps every other card as often as it occurred |
| Game.WithoutConcat | Memory.py:143 | filtering distributes over concatenation, so the kept cards stay in their order |
| Game.CountsAtMostOne | Memory.py:121 | a list in which no value occurs twice has no repeated entry |
| Game.FaceUpListed | Memory.py:119-143 | the face-up list never holds a card twice, and a card is face-up exactly when it is selected or matched |
| Game.NewGameConsistent | Memory.py:31-38 | a fresh board with nothing selected, face-up or matched and both counters at zero satisfies the invariant |
| Game.FlipKeepsConsistent | Memory.py:119-126 | an accepted flip keeps the invariant, counting one flip and, on the second card, one attempt |
| Game.MatchKeepsPairs | Memory.py:133-134 | adding two unmatched cards with equal faces keeps the matched cards in pairs, and the set grows by two |
| Game.MatchKeepsConsistent | Memory.py:132-135 | a matched pair keeps the invariant with both cards added to the matched set and the selection cleared |
| Game.MismatchKeepsConsistent | Memory.py:140-143 | a mismatched pair keeps the invariant with both cards removed from the face-up list and the selection cleared |
| Game.Positions | Memory.py:137 | the set of board positions 0..n-1 has n elements |
| Game.MatchedOnBoard | Memory.py:134 | matched cards are always board positions |
| Game.PendingPairLeavesRoom | Memory.py:125-137 | while a pair is pending at most fourteen cards are matched, so a mismatch never reaches the win test |
| Game.WonBoardIsCleared | Memory.py:137 | sixteen matched cards means every card is matched and face-up, nothing is selected, every flip is part of a finished attempt, and at least eight attempts were made |
| Game.MemoryGame.constructor | Memory.py:7-11 | a new game starts from `reset_game_data` and reports to the given high-score log |
| Game.MemoryGame.ResetGameData | Memory.py:31-38 | a new valid board, nothing selected, face-up or matched, no player, and both counters at zero |
| Game.MemoryGame.StartGame | Memory.py:109-116 | the game starts exactly when the stripped name is non-empty and stores the stripped name; otherwise nothing changes |
| Game.MemoryGame.FlipCard | Memory.py:118-127 | a card is taken exactly when fewer than two are selected and it is neither face-up nor matched. It then joins the selection and the face-up list, counts one flip, and on the second card one attempt that leaves a pair pending. Otherwise nothing changes. The invariant is kept |
| Game.MemoryGame.CheckMatch | Memory.py:129-146 | Equal faces: both cards join the matched set, which grows by two, and the face-up list stays. Different faces: exactly those two leave the face-up list and the others keep their order. The selection is cleared and the counters stay. The game is won exactly when sixteen cards are matched, then with every card matched and at least eight attempts, and the winner's line is saved and the leaderboard read back |
| Game.MemoryGame.ShowWinner | Memory.py:215-220 | the score is the attempt count, saved as `name:score` only when the player has a non-empty name; the leaderboard is what `load_highscores` returns for the log after that |

## Left out

- The Flet user interface is not modelled: the window, the screens, the snackbar messages, the card images and the leaderboard layout (`setup_window`, `show_welcome_screen`, `update_ui`, `create_game_board`, `show_snackbar` and the display parts of `show_winner`). An error `Memory.py` shows in a snackbar is a returned flag or an empty result here.
- The `asyncio.sleep` pauses are not modelled. `check_match` runs as one synchronous step after the flip that selects the second card.
- Randomness: `Deck.Shuffle` swaps each position with an arbitrary position at or before it. The model proves that the result is a permutation. It says nothing about the shuffle being uniform.
- File I/O is not modelled:
  - The log is the sequence of its lines, without line terminators.
  - Whether opening the file succeeds is given by the `readable` and `writable` flags of `HighscoreLog`.
  - `initialize_highscore_file` only creates an empty file. A log that does not exist therefore reads like an empty one, and it is not modelled separately.
- ScoreText.ParseInt: Python's `int()` also accepts `_` between digits and non-ASCII decimal digits. The model accepts only an optional sign and ASCII digits, and treats the other forms as raising. The game never writes such scores. CPython's `int()` also raises on a decimal string of more than 4300 digits; the model reads digit strings of any length, since the game's scores are attempt counts far below that. The whitespace it tolerates around the number follows CPython: every Unicode space except the ASCII separators U+001C to U+001F.
- HighScores.HighscoreLog.SaveHighscore: a name containing a line break becomes several lines in the real file. The model keeps it as one line. The welcome screen's text field is single-line.
- HighScores.SavedLineReadBack: holds in the model for every colon-free name that does not start with whitespace (`start_game_from_button` only stores stripped names). In the real file a name with `\n` or `\r` is read back by `readlines()` as several lines, so the round trip does not hold for such names.
- ScoreText.ParseFormatRoundTrip: parses the written line as one line. For a name with `\n` or `\r` the real file splits it, so the round trip is promised only for names without line breaks.
- Game.MemoryGame.FlipCard: requires the index to be a board position 0..15. The board's buttons only ever pass those.
- `reset_game` (the restart button) is not modelled separately. It calls `reset_game_data` and redraws the welcome screen.
- `page`, `username_field` and `card_images` are UI state and are not part of the model.

=== FILE: Deck.dfy ===
/**
 * The deck of the 4x4 board: `create_cards` lays out the face values
 * `list(range(8)) * 2` and shuffles them in place with `random.shuffle`.
 */
module Deck {

  /** Number of distinct faces (fruit images) on the board. */
  const PairCount := 8

  /** Number of cards on the 4x4 board. */
  const CardCount := 2 * PairCount

  /** `list(range(n))`: position `i` holds `i`. */
  function Range(n: nat): (r: seq<int>)
    ensures |r| == n
    ensures forall i :: 0 <= i < n ==> r[i] == i
  {
    if n == 0 then [] else Range(n - 1) + [n - 1]
  }

  /** The unshuffled deck, `list(range(8)) * 2`: sixteen cards, card `i`
      showing face `i % 8`. */
  function FaceValues(): (r: seq<int>)
    ensures |r| == CardCount
    ensures forall i :: 0 <= i < |r| ==> r[i] == i % PairCount
  {
    Range(PairCount) + Range(PairCount)
  }

  /** A valid board: every face 0..7 lies on exactly two cards and no
      other value appears. */
  ghost predicate IsDeck(cards: seq<int>) {
    forall v :: multiset(cards)[v] == if 0 <= v < PairCount then 2 else 0
  }

  /** `list(range(n))` holds each of 0..n-1 once and nothing else. */
  lemma {:induction false} RangeCount(n: nat, v: int)
    ensures multiset(Range(n))[v] == if 0 <= v < n then 1 else 0
  {
    if n > 0 {
      RangeCount(n - 1, v);
      assert multiset(Range(n)) == multiset(Range(n - 1)) + multiset{n - 1};
    }
  }

  /** `list(range(8)) * 2` holds each face twice and nothing else. */
  lemma FaceValuesCount()
    ensures forall v :: multiset(FaceValues())[v] == if 0 <= v < PairCount then 2 else 0
  {
    var r := Range(PairCount);
    assert multiset(r + r) == multiset(r) + multiset(r);
    forall v ensures multiset(r)[v] == if 0 <= v < PairCount then 1 else 0 {
      RangeCount(PairCount, v);
    }
  }

  /** The valid boards are exactly the arrangements of `list(range(8)) * 2`. */
  lemma DeckIsPermutation(cards: seq<int>)
    ensures IsDeck(cards) <==> multiset(cards) == multiset(FaceValues())
  {
    FaceValuesCount();
    if IsDeck(cards) {
      SameCounts(multiset(cards), multiset(FaceValues()));
    }
  }

  /** Two multisets of faces with the deck's counts are equal. */
  lemma SameCounts(m: multiset<int>, faces: multiset<int>)
    requires forall v :: faces[v] == if 0 <= v < PairCount then 2 else 0
    requires forall v :: m[v] == if 0 <= v < PairCount then 2 else 0
    ensures m == faces
  {
    assert forall v :: m[v] == faces[v];
  }

  /** A board has 16 cards and every card shows one of the faces 0..7. */
  lemma DeckShape(cards: seq<int>)
    requires IsDeck(cards)
    ensures |cards| == CardCount
    ensures forall i :: 0 <= i < |cards| ==> 0 <= cards[i] < PairCount
  {
    DeckIsPermutation(cards);
    assert |cards| == |multiset(cards)| == |multiset(FaceValues())| == CardCount;
    forall i | 0 <= i < |cards| ensures 0 <= cards[i] < PairCount {
      assert cards[i] in multiset(cards);
    }
  }

  /** `random.shuffle`: Fisher-Yates from the last position down, each step
      swapping position `i` with an arbitrary position `j <= i` (the random
      draw `randbelow(i + 1)`). The result is a permutation of the input. */
  method Shuffle(a: array<int>)
    modifies a
    ensures multiset(a[..]) == multiset(old(a[..]))
  {
    var i := a.Length - 1;
    while i > 0
      invariant i < a.Length
      invariant multiset(a[..]) == multiset(old(a[..]))
    {
      var j :| 0 <= j <= i;
      a[i], a[j] := a[j], a[i];
      i := i - 1;
    }
  }

  /** `create_cards`: a shuffled copy of `list(range(8)) * 2`, which by
      `DeckIsPermutation` is what `IsDeck` says. */
  method CreateCards() returns (cards: seq<int>)
    ensures IsDeck(cards) && |cards| == CardCount
  {
    var values := FaceValues();
    var a := new int[|values|];
    forall i | 0 <= i < |values| {
      a[i] := values[i];
    }
    assert a[..] == values;
    Shuffle(a);
    cards := a[..];
    DeckIsPermutation(cards);
    DeckShape(cards);
  }
}

=== FILE: Game.dfy ===
/**
 * The game engine of `MemoryGame`: the board, the turn state
 * (`selected_cards`, `flipped_cards`, `matched_pairs`, `attempts`,
 * `total_flips`), the card-flip guard, the resolution of a pair and the
 * scoring step at a win.
 *
 * The game resolves a pair in an asynchronous task after a short sleep;
 * here `FlipCard` reports that a pair is pending and `CheckMatch` is the
 * step that resolves it. While a pair is pending `FlipCard` changes nothing
 * (its guard requires fewer than two selected cards), so no tap can slip in
 * between the two.
 */
module Game {
  import opened Wrappers
  import opened Deck
  import opened ScoreText
  import opened HighScores

  predicate Distinct(s: seq<int>) {
    forall i, j :: 0 <= i < j < |s| ==> s[i] != s[j]
  }

  /** `[card for card in s if card not in drop]`: no longer than `s`, and
      every card it keeps is a card of `s` that is not in `drop`. */
  function Without(s: seq<int>, drop: seq<int>): (r: seq<int>)
    ensures |r| <= |s|
    ensures forall i :: 0 <= i < |r| ==> r[i] in s && r[i] !in drop
  {
    if s == [] then []
    else (if s[0] in drop then [] else [s[0]]) + Without(s[1..], drop)
  }

  /** Every card of `s` that is not in `drop` keeps all its occurrences and
      the others are gone. */
  lemma {:induction false} WithoutCounts(s: seq<int>, drop: seq<int>)
    ensures forall x :: multiset(Without(s, drop))[x] == if x in drop then 0 else multiset(s)[x]
  {
    if s != [] {
      WithoutCounts(s[1..], drop);
      assert s == [s[0]] + s[1..];
    }
  }

  /** The filter keeps the order of the list: filtering a concatenation
      concatenates the filtered halves. */
  lemma {:induction false} WithoutConcat(a: seq<int>, b: seq<int>, drop: seq<int>)
    ensures Without(a + b, drop) == Without(a, drop) + Without(b, drop)
  {
    if a == [] {
      assert a + b == b;
    } else {
      var head := if a[0] in drop then [] else [a[0]];
      WithoutConcat(a[1..], b, drop);
      assert (a + b)[0] == a[0] && (a + b)[1..] == a[1..] + b;
      calc {
        Without(a + b, drop);
        head + Without(a[1..] + b, drop);
        head + (Without(a[1..], drop) + Without(b, drop));
        (head + Without(a[1..], drop)) + Without(b, drop);
      }
    }
  }

  /** `y` is a matched card, other than `x`, showing the same face as `x`. */
  ghost predicate PartnerIn(cards: seq<int>, matched: set<int>, x: int, y: int) {
    y in matched && y != x && 0 <= x < |cards| && 0 <= y < |cards| && cards[y] == cards[x]
  }

  ghost predicate HasPartner(cards: seq<int>, matched: set<int>, x: int) {
    exists y :: PartnerIn(cards, matched, x, y)
  }

  /** At most two cards are selected, and they are different cards. */
  predicate SelectionOk(selected: seq<int>) {
    |selected| <= 2 && (|selected| == 2 ==> selected[0] != selected[1])
  }

  /** The face-up list and the selection hold board positions only, a
      selected card is never a matched one, and the face-up list holds
      exactly the selected and the matched cards, each once. */
  ghost predicate FaceUpOk(cards: seq<int>, selected: seq<int>, flipped: seq<int>, matched: set<int>) {
    && (forall i :: 0 <= i < |flipped| ==> 0 <= flipped[i] < |cards|)
    && (forall i :: 0 <= i < |selected| ==> 0 <= selected[i] < |cards| && selected[i] !in matched)
    && multiset(flipped) == multiset(selected) + multiset(matched)
  }

  /** Cards are matched in pairs: every matched card has another matched
      card with the same face. */
  ghost predicate PairsOk(cards: seq<int>, matched: set<int>) {
    && |matched| % 2 == 0
    && (forall x {:trigger HasPartner(cards, matched, x)} :: x in matched ==> HasPartner(cards, matched, x))
  }

  /** Every accepted flip is counted, two per attempt plus one while a turn
      is half done, and every matched pair, and a pending pair, has used up
      an attempt. */
  predicate CountsOk(selected: seq<int>, matched: set<int>, attempts: nat, totalFlips: nat) {
    && totalFlips == 2 * attempts + (if |selected| == 1 then 1 else 0)
    && |matched| + (if |selected| == 2 then 2 else 0) <= 2 * attempts
  }

  /** The invariant of the turn state on a board of `CardCount` cards. */
  ghost predicate Consistent(cards: seq<int>, selected: seq<int>, flipped: seq<int>,
                             matched: set<int>, attempts: nat, totalFlips: nat)
  {
    && |cards| == CardCount
    && SelectionOk(selected)
    && FaceUpOk(cards, selected, flipped, matched)
    && PairsOk(cards, matched)
    && CountsOk(selected, matched, attempts, totalFlips)
  }

  /** A list in which no value occurs twice has no repeated entry. */
  lemma CountsAtMostOne(s: seq<int>)
    requires forall x :: multiset(s)[x] <= 1
    ensures Distinct(s)
  {
    forall i, j | 0 <= i < j < |s| ensures s[i] != s[j] {
      assert s == s[..j] + [s[j]] + s[j + 1..];
      assert s[i] in s[..j];
      assert multiset(s)[s[j]] >= multiset(s[..j])[s[j]] + 1;
    }
  }

  /** The face-up list never holds a card twice, and a card is face-up
      exactly when it is selected or matched. */
  lemma FaceUpListed(cards: seq<int>, selected: seq<int>, flipped: seq<int>,
                     matched: set<int>, attempts: nat, totalFlips: nat)
    requires Consistent(cards, selected, flipped, matched, attempts, totalFlips)
    ensures Distinct(flipped)
    ensures forall x :: x in flipped <==> x in selected || x in matched
  {
    forall x ensures multiset(flipped)[x] <= 1 {
      assert multiset(selected)[x] <= 1 by {
        if |selected| == 2 {
          assert selected == [selected[0]] + [selected[1]];
        }
      }
      assert x in selected ==> x !in matched;
    }
    CountsAtMostOne(flipped);
    forall x ensures x in flipped <==> x in selected || x in matched {
      assert x in flipped <==> x in multiset(flipped);
      assert x in selected <==> x in multiset(selected);
    }
  }

  /** An accepted flip keeps the invariant. */
  lemma FlipKeepsConsistent(cards: seq<int>, selected: seq<int>, flipped: seq<int>,
                            matched: set<int>, attempts: nat, totalFlips: nat, index: int)
    requires Consistent(cards, selected, flipped, matched, attempts, totalFlips)
    requires 0 <= index < |cards|
    requires |selected| < 2 && index !in flipped && index !in matched
    ensures Consistent(cards, selected + [index], flipped + [index], matched,
                       attempts + (if |selected| == 1 then 1 else 0), totalFlips + 1)
  {
    assert multiset(flipped + [index]) == multiset(flipped) + multiset{index};
    assert multiset(selected + [index]) == multiset(selected) + multiset{index};
    if |selected| == 1 {
      assert selected[0] in multiset(flipped);
    }
  }

  /** Adding a pair of equal faces that were not matched keeps the matched
      cards in pairs, and the set grows by exactly two. */
  lemma MatchKeepsPairs(cards: seq<int>, matched: set<int>, c1: int, c2: int)
    requires PairsOk(cards, matched)
    requires c1 != c2 && c1 !in matched && c2 !in matched
    requires 0 <= c1 < |cards| && 0 <= c2 < |cards| && cards[c1] == cards[c2]
    ensures |matched + {c1, c2}| == |matched| + 2
    ensures PairsOk(cards, matched + {c1, c2})
  {
    AddTwo(matched, c1, c2);
    PartnersKept(cards, matched, c1, c2);
  }

  /** Every card of the grown matched set still has a partner in it. */
  lemma PartnersKept(cards: seq<int>, matched: set<int>, c1: int, c2: int)
    requires PairsOk(cards, matched)
    requires c1 != c2
    requires 0 <= c1 < |cards| && 0 <= c2 < |cards| && cards[c1] == cards[c2]
    ensures forall x :: x in matched + {c1, c2} ==> HasPartner(cards, matched + {c1, c2}, x)
  {
    var m := matched + {c1, c2};
    forall x | x in m
      ensures HasPartner(cards, m, x)
    {
      if x == c1 {
        assert PartnerIn(cards, m, x, c2);
      } else if x == c2 {
        assert PartnerIn(cards, m, x, c1);
      } else {
        assert HasPartner(cards, matched, x);
        var y :| PartnerIn(cards, matched, x, y);
        assert PartnerIn(cards, m, x, y);
      }
    }
  }

  lemma AddTwo(matched: set<int>, c1: int, c2: int)
    requires c1 != c2 && c1 !in matched && c2 !in matched
    ensures |matched + {c1, c2}| == |matched| + 2
  {
    assert |matched + {c1}| == |matched| + 1;
    assert matched + {c1, c2} == (matched + {c1}) + {c2};
  }

  /** Two cards with equal faces become matched: the invariant holds with
      both added to the matched set and the selection cleared, and the
      matched set grows by exactly two. */
  lemma MatchKeepsConsistent(cards: seq<int>, selected: seq<int>, flipped: seq<int>,
                             matched: set<int>, attempts: nat, totalFlips: nat)
    requires Consistent(cards, selected, flipped, matched, attempts, totalFlips)
    requires |selected| == 2
    requires cards[selected[0]] == cards[selected[1]]
    ensures |matched + {selected[0], selected[1]}| == |matched| + 2
    ensures Consistent(cards, [], flipped, matched + {selected[0], selected[1]}, attempts, totalFlips)
  {
    var c1, c2 := selected[0], selected[1];
    assert selected == [c1] + [c2];
    assert multiset(matched + {c1, c2}) == multiset(matched) + multiset{c1, c2};
    MatchKeepsPairs(cards, matched, c1, c2);
  }

  /** Two cards with different faces are turned back: the invariant holds
      with both removed from the face-up list and the selection cleared. */
  lemma MismatchKeepsConsistent(cards: seq<int>, selected: seq<int>, flipped: seq<int>,
                                matched: set<int>, attempts: nat, totalFlips: nat)
    requires Consistent(cards, selected, flipped, matched, attempts, totalFlips)
    requires |selected| == 2
    ensures Consistent(cards, [], Without(flipped, selected), matched, attempts, totalFlips)
  {
    var f := Without(flipped, selected);
    WithoutCounts(flipped, selected);
    assert selected == [selected[0]] + [selected[1]];
    forall x ensures multiset(f)[x] == multiset(matched)[x] {
      if x !in selected {
        assert multiset(selected)[x] == 0;
      }
    }
    assert multiset(f) == multiset(matched);
    forall i | 0 <= i < |f| ensures 0 <= f[i] < |cards| {
      assert f[i] in multiset(f);
      assert f[i] in multiset(flipped);
      var k :| 0 <= k < |flipped| && flipped[k] == f[i];
    }
  }

  /** A fresh board with nothing selected, face-up or matched and both
      counters at zero satisfies the invariant. */
  lemma NewGameConsistent(cards: seq<int>)
    requires |cards| == CardCount
    ensures Consistent(cards, [], [], {}, 0, 0)
  {
    var none: set<int> := {};
    assert multiset(none) == multiset{};
  }

  /** All positions of the board. */
  function Positions(n: nat): (p: set<int>)
    ensures |p| == n
    ensures forall i :: i in p <==> 0 <= i < n
  {
    if n == 0 then {} else Positions(n - 1) + {n - 1}
  }

  /** Matched cards are board positions. */
  lemma MatchedOnBoard(cards: seq<int>, selected: seq<int>, flipped: seq<int>,
                       matched: set<int>, attempts: nat, totalFlips: nat)
    requires Consistent(cards, selected, flipped, matched, attempts, totalFlips)
    ensures matched <= Positions(|cards|)
  {
    forall x | x in matched ensures 0 <= x < |cards| {
      assert x in multiset(flipped);
      var k :| 0 <= k < |flipped| && flipped[k] == x;
    }
  }

  /** While a pair is pending, at most fourteen cards are matched: the two
      selected cards are on the board and not matched. So `check_match` on
      two different faces never sees a won board. */
  lemma PendingPairLeavesRoom(cards: seq<int>, selected: seq<int>, flipped: seq<int>,
                              matched: set<int>, attempts: nat, totalFlips: nat)
    requires Consistent(cards, selected, flipped, matched, attempts, totalFlips)
    requires |selected| == 2
    ensures |matched| <= CardCount - 2
  {
    var all := Positions(|cards|);
    var grown := matched + {selected[0], selected[1]};
    MatchedOnBoard(cards, selected, flipped, matched, attempts, totalFlips);
    AddTwo(matched, selected[0], selected[1]);
    assert grown <= all;
    assert |all - grown| == |all| - |grown|;
  }

  /** Sixteen matched cards (`len(matched_pairs) == 16`) means the whole
      board is matched, nothing is selected, every card is face-up, every
      flip belongs to a finished attempt and at least eight attempts were
      made. */
  lemma {:induction false} WonBoardIsCleared(cards: seq<int>, selected: seq<int>, flipped: seq<int>,
                                             matched: set<int>, attempts: nat, totalFlips: nat)
    requires Consistent(cards, selected, flipped, matched, attempts, totalFlips)
    requires |matched| == CardCount
    ensures forall i :: 0 <= i < |cards| ==> i in matched
    ensures forall i :: 0 <= i < |cards| ==> i in flipped
    ensures selected == []
    ensures totalFlips == 2 * attempts
    ensures attempts >= PairCount
  {
    FaceUpListed(cards, selected, flipped, matched, attempts, totalFlips);
    MatchedOnBoard(cards, selected, flipped, matched, attempts, totalFlips);
    var all := Positions(|cards|);
    assert |all - matched| == |all| - |matched| == 0;
    assert all == matched;
    FirstIsListed(selected);
  }

  /** The first card of a non-empty selection is one of the selected cards. */
  lemma FirstIsListed(s: seq<int>)
    ensures s != [] ==> s[0] in s
  {
  }

  /** `MemoryGame`: the board and the turn state of one game, with the
      high-score file it reports to. */
  class MemoryGame {
    var cards: seq<int>
    var selectedCards: seq<int>
    var flippedCards: seq<int>
    var matchedPairs: set<int>
    var username: Option<string>
    var attempts: nat
    var totalFlips: nat
    const highscoreFile: HighscoreLog

    ghost predicate Valid()
      reads this
    {
      && IsDeck(cards)
      && Consistent(cards, selectedCards, flippedCards, matchedPairs, attempts, totalFlips)
      && (username.Some? ==> username.value != [] && Strip(username.value) == username.value)
    }

    /** `__init__`: a fresh game reporting to `highscoreFile`. */
    constructor (highscoreFile: HighscoreLog)
      ensures Valid()
      ensures this.highscoreFile == highscoreFile
      ensures selectedCards == [] && flippedCards == [] && matchedPairs == {}
      ensures username == None && attempts == 0 && totalFlips == 0
    {
      this.highscoreFile := highscoreFile;
      new;
      ResetGameData();
    }

    /** `reset_game_data`: a newly shuffled board, nothing selected,
        face-up or matched, no player and both counters at zero. */
    method ResetGameData()
      modifies this
      ensures Valid()
      ensures IsDeck(cards)
      ensures selectedCards == [] && flippedCards == [] && matchedPairs == {}
      ensures username == None && attempts == 0 && totalFlips == 0
    {
      var deck := CreateCards();
      NewGameConsistent(deck);
      cards, selectedCards, matchedPairs, flippedCards := deck, [], {}, [];
      username, attempts, totalFlips := None, 0, 0;
    }

    /** `start_game_from_button`: the game starts with the stripped name
        typed in; an empty name is refused and nothing changes. */
    method StartGame(fieldValue: string) returns (started: bool)
      requires Valid()
      modifies this
      ensures Valid()
      ensures started <==> Strip(fieldValue) != []
      ensures username == if started then Some(Strip(fieldValue)) else old(username)
      ensures cards == old(cards) && selectedCards == old(selectedCards)
      ensures flippedCards == old(flippedCards) && matchedPairs == old(matchedPairs)
      ensures attempts == old(attempts) && totalFlips == old(totalFlips)
    {
      var name := Strip(fieldValue);
      if name == [] {
        return false;
      }
      StripTrimmed(name);
      username := Some(name);
      started := true;
    }

    /** `flip_card` up to the point where it awaits `check_match`. A card is
        taken only while fewer than two are selected and only if it is not
        already face-up or matched; otherwise nothing changes. A taken card
        joins the selection and the face-up list, counts as a flip, and the
        second card of a turn counts an attempt. `pending` says that a pair
        now waits for `CheckMatch`. */
    method FlipCard(index: int) returns (pending: bool)
      requires Valid()
      requires 0 <= index < |cards|
      modifies this
      ensures Valid()
      ensures cards == old(cards) && matchedPairs == old(matchedPairs) && username == old(username)
      ensures var accepted := |old(selectedCards)| < 2 && index !in old(flippedCards) && index !in old(matchedPairs);
        && (accepted ==>
              && selectedCards == old(selectedCards) + [index]
              && flippedCards == old(flippedCards) + [index]
              && totalFlips == old(totalFlips) + 1
              && attempts == old(attempts) + (if |selectedCards| == 2 then 1 else 0))
        && (!accepted ==>
              && selectedCards == old(selectedCards) && flippedCards == old(flippedCards)
              && totalFlips == old(totalFlips) && attempts == old(attempts))
        && pending == (accepted && |selectedCards| == 2)
    {
      pending := false;
      if |selectedCards| < 2 && index !in flippedCards && index !in matchedPairs {
        FlipKeepsConsistent(cards, selectedCards, flippedCards, matchedPairs, attempts, totalFlips, index);
        pending := |selectedCards| == 1;
        selectedCards, flippedCards, totalFlips, attempts :=
          selectedCards + [index], flippedCards + [index], totalFlips + 1,
          if pending then attempts + 1 else attempts;
      }
    }

    /** `check_match`: resolves the pending pair. Equal faces join the
        matched set and stay face-up; when that makes sixteen matched cards
        the game is won and `ShowWinner` runs. Different faces are turned
        back: exactly those two leave the face-up list, the rest keep their
        order. Either way the selection is cleared and no counter moves. */
    method CheckMatch() returns (won: bool, leaderboard: seq<Record>)
      requires Valid()
      requires |selectedCards| == 2
      modifies this, highscoreFile
      ensures Valid()
      ensures selectedCards == []
      ensures cards == old(cards) && username == old(username)
      ensures attempts == old(attempts) && totalFlips == old(totalFlips)
      ensures old(matchedPairs) <= matchedPairs
      ensures won <==> |matchedPairs| == CardCount
      ensures var c1, c2 := old(selectedCards)[0], old(selectedCards)[1];
        if cards[c1] == cards[c2] then
          && matchedPairs == old(matchedPairs) + {c1, c2}
          && |matchedPairs| == |old(matchedPairs)| + 2
          && flippedCards == old(flippedCards)
          && won == (|matchedPairs| == CardCount)
        else
          && matchedPairs == old(matchedPairs)
          && flippedCards == Without(old(flippedCards), [c1, c2])
          && !won
      ensures won ==> (forall i :: 0 <= i < |cards| ==> i in matchedPairs) && attempts >= PairCount
      ensures won ==> (highscoreFile.lines ==
        if username.Some? && username.value != [] && highscoreFile.writable
        then old(highscoreFile.lines) + [FormatLine(username.value, attempts)]
        else old(highscoreFile.lines))
      ensures won ==> leaderboard == (if highscoreFile.readable then Ranked(highscoreFile.lines) else [])
      ensures !won ==> highscoreFile.lines == old(highscoreFile.lines) && leaderboard == []
    {
      var card1, card2 := selectedCards[0], selectedCards[1];
      won := false;
      leaderboard := [];
      if cards[card1] == cards[card2] {
        MatchKeepsConsistent(cards, selectedCards, flippedCards, matchedPairs, attempts, totalFlips);
        matchedPairs := matchedPairs + {card1, card2};
        selectedCards := [];
        if |matchedPairs| == CardCount {
          WonBoardIsCleared(cards, selectedCards, flippedCards, matchedPairs, attempts, totalFlips);
          won := true;
          leaderboard := ShowWinner();
        }
      } else {
        PendingPairLeavesRoom(cards, selectedCards, flippedCards, matchedPairs, attempts, totalFlips);
        MismatchKeepsConsistent(cards, selectedCards, flippedCards, matchedPairs, attempts, totalFlips);
        var cardsToFlip := selectedCards;
        assert cardsToFlip == [card1, card2];
        selectedCards := [];
        flippedCards := Without(flippedCards, cardsToFlip);
      }
    }

    /** The scoring part of `show_winner`: the score is the number of
        attempts, saved only when the player has a non-empty name; then the
        high scores are read back for the leaderboard. */
    method ShowWinner() returns (leaderboard: seq<Record>)
      modifies highscoreFile
      ensures highscoreFile.lines ==
        (if username.Some? && username.value != [] && highscoreFile.writable
         then old(highscoreFile.lines) + [FormatLine(username.value, attempts)]
         else old(highscoreFile.lines))
      ensures leaderboard == (if highscoreFile.readable then Ranked(highscoreFile.lines) else [])
    {
      var score := attempts;
      if username.Some? && username.value != [] {
        var _ := highscoreFile.SaveHighscore(username.value, score);
      }
      leaderboard := highscoreFile.LoadHighscores();
    }
  }
}

=== FILE: HighScores.dfy ===
/**
 * The high-score log: `save_highscore` appends one `name:score` line to the
 * log, and `load_highscores` reads every line, keeps those with a ':',
 * sorts the entries by score with Python's stable `sorted` and returns the
 * first five; any exception while reading makes the result empty.
 * The log file is modelled as the sequence of its lines.
 */
module HighScores {
  import opened Wrappers
  import opened ScoreText

  /** How many entries `load_highscores` returns (`[:5]`). */
  const MaxShown := 5

  predicate SortedByScore(s: seq<Record>) {
    forall i, j :: 0 <= i < j < |s| ==> s[i].score <= s[j].score
  }

  /** The entries of `s` with score `k`, in their order in `s`. */
  function WithScore(s: seq<Record>, k: int): seq<Record> {
    if s == [] then []
    else (if s[0].score == k then [s[0]] else []) + WithScore(s[1..], k)
  }

  /** Puts `r` into a sorted sequence before every entry whose score is not
      smaller, so that `r` precedes the entries it ties with. */
  function Insert(r: Record, s: seq<Record>): (t: seq<Record>)
    requires SortedByScore(s)
    ensures SortedByScore(t)
    ensures multiset(t) == multiset(s) + multiset{r}
    ensures t[0] == if s == [] || r.score <= s[0].score then r else s[0]
  {
    if s == [] || r.score <= s[0].score then
      SortedCons(r, s);
      [r] + s
    else
      var rest := Insert(r, s[1..]);
      assert s == [s[0]] + s[1..];
      SortedCons(s[0], rest);
      [s[0]] + rest
  }

  /** An entry no higher than the first of a sorted sequence can go in front. */
  lemma SortedCons(x: Record, s: seq<Record>)
    requires SortedByScore(s)
    requires s == [] || x.score <= s[0].score
    ensures SortedByScore([x] + s)
  {
    var t := [x] + s;
    forall i, j | 0 <= i < j < |t| ensures t[i].score <= t[j].score {
      if i == 0 {
        assert t[j] == s[j - 1];
      } else {
        assert t[i] == s[i - 1] && t[j] == s[j - 1];
      }
    }
  }

  /** `sorted(entries, key=lambda x: x[1])`: ascending by score, and a
      permutation of the entries. */
  function SortByScore(xs: seq<Record>): (ys: seq<Record>)
    ensures SortedByScore(ys)
    ensures multiset(ys) == multiset(xs)
  {
    if xs == [] then []
    else
      assert xs == [xs[0]] + xs[1..];
      Insert(xs[0], SortByScore(xs[1..]))
  }

  lemma {:induction false} WithScoreCons(r: Record, s: seq<Record>, k: int)
    ensures WithScore([r] + s, k) == (if r.score == k then [r] else []) + WithScore(s, k)
  {
    assert ([r] + s)[1..] == s;
  }

  /** Inserting `r` adds it in front of the entries it ties with and leaves
      the entries of every other score in place. */
  lemma {:induction false} InsertWithScore(r: Record, s: seq<Record>, k: int)
    requires SortedByScore(s)
    ensures WithScore(Insert(r, s), k) == (if r.score == k then [r] else []) + WithScore(s, k)
  {
    if s == [] || r.score <= s[0].score {
      WithScoreCons(r, s, k);
    } else {
      var rest := Insert(r, s[1..]);
      var tail := WithScore(s[1..], k);
      assert Insert(r, s) == [s[0]] + rest;
      assert s == [s[0]] + s[1..];
      InsertWithScore(r, s[1..], k);
      WithScoreCons(s[0], rest, k);
      WithScoreCons(s[0], s[1..], k);
      if s[0].score == k {
        assert WithScore(rest, k) == tail;
      } else {
        assert WithScore(Insert(r, s), k) == WithScore(rest, k);
        assert WithScore(s, k) == tail;
      }
    }
  }

  /** Python's sort is stable: entries with equal scores keep their order. */
  lemma {:induction false} SortIsStable(xs: seq<Record>, k: int)
    ensures WithScore(SortByScore(xs), k) == WithScore(xs, k)
  {
    if xs != [] {
      SortIsStable(xs[1..], k);
      InsertWithScore(xs[0], SortByScore(xs[1..]), k);
      assert xs == [xs[0]] + xs[1..];
      WithScoreCons(xs[0], xs[1..], k);
    }
  }

  /** `s[:n]`: the first `min(n, len(s))` elements of `s`. */
  function Take<T>(s: seq<T>, n: nat): (r: seq<T>)
    ensures |r| == if |s| <= n then |s| else n
    ensures r == s[..|r|]
  {
    if |s| <= n then s else s[..n]
  }

  /** The entries of a readable log in file order, or `None` when some line
      raises while being parsed. */
  function ParseAll(lines: seq<string>): (r: Option<seq<Record>>)
    ensures r.Some? ==> |r.value| <= |lines|
    ensures (forall i :: 0 <= i < |lines| ==> ':' !in lines[i]) ==> r == Some([])
  {
    if lines == [] then Some([])
    else ParseStep(ParseAll(lines[..|lines| - 1]), lines[|lines| - 1])
  }

  /** One turn of the reading loop: a skipped line keeps the entries, a
      parsed one is appended, a line that raises ends the parse. */
  function ParseStep(entries: Option<seq<Record>>, line: string): (r: Option<seq<Record>>)
    ensures ':' !in line ==> r == entries
    ensures r.None? <==> entries.None? || ParseLine(line).Malformed?
    ensures r.Some? ==> |r.value| <= |entries.value| + 1
    ensures entries.Some? && ParseLine(line).Entry? ==> r == Some(entries.value + [ParseLine(line).record])
  {
    match entries
    case None => None
    case Some(records) =>
      match ParseLine(line)
      case Skip => Some(records)
      case Entry(r) => Some(records + [r])
      case Malformed => None
  }

  /** `sorted(entries, key=...)[:5]`: the first five of the sorted entries. */
  function Top(records: seq<Record>): seq<Record> {
    Take(SortByScore(records), MaxShown)
  }

  /** What `load_highscores` returns for a readable log: at most five
      entries, in ascending order of score. */
  function Ranked(lines: seq<string>): (r: seq<Record>)
    ensures |r| <= MaxShown
    ensures SortedByScore(r)
  {
    match ParseAll(lines)
    case None => []
    case Some(records) => Top(records)
  }

  /** A log that parses is ranked by its entries. */
  lemma RankedOfParsed(lines: seq<string>, records: seq<Record>)
    requires ParseAll(lines) == Some(records)
    ensures Ranked(lines) == Top(records)
  {
  }

  /** One line that raises makes the whole parse fail. */
  lemma {:induction false} MalformedLineFails(lines: seq<string>, i: nat)
    requires i < |lines| && ParseLine(lines[i]).Malformed?
    ensures ParseAll(lines) == None
  {
    if i < |lines| - 1 {
      assert lines[..|lines| - 1][i] == lines[i];
      MalformedLineFails(lines[..|lines| - 1], i);
    }
  }

  /** A line that raises (two colons, or a score `int()` rejects) empties
      the high-score table, wherever it stands in the log. */
  lemma MalformedLineEmptiesRanking(lines: seq<string>, i: nat)
    requires i < |lines| && ParseLine(lines[i]).Malformed?
    ensures Ranked(lines) == []
  {
    MalformedLineFails(lines, i);
  }

  /** A parse fails only because of a line that raises. */
  lemma {:induction false} FailureHasMalformedLine(lines: seq<string>)
    requires ParseAll(lines).None?
    ensures exists i :: 0 <= i < |lines| && ParseLine(lines[i]).Malformed?
  {
    var init := lines[..|lines| - 1];
    if ParseAll(init).None? {
      FailureHasMalformedLine(init);
      var i :| 0 <= i < |init| && ParseLine(init[i]).Malformed?;
      assert lines[i] == init[i];
    } else {
      assert ParseLine(lines[|lines| - 1]).Malformed?;
    }
  }

  /** In a sorted sequence everything before position `m` scores no more
      than everything from `m` on. */
  lemma SortedSplit(ys: seq<Record>, m: nat)
    requires SortedByScore(ys) && m <= |ys|
    ensures forall x, y :: x in ys[..m] && y in ys[m..] ==> x.score <= y.score
  {
    forall x, y | x in ys[..m] && y in ys[m..] ensures x.score <= y.score {
      var i :| 0 <= i < m && ys[i] == x;
      var j :| 0 <= j < |ys[m..]| && ys[m..][j] == y;
      assert ys[m..][j] == ys[m + j];
    }
  }

  /** The table shows the lowest-scored entries: `min(5, n)` of the `n`
      parsed entries, and every entry left out scores at least as much as
      every entry shown. */
  lemma RankedAreLowest(lines: seq<string>, records: seq<Record>)
    requires ParseAll(lines) == Some(records)
    ensures |Ranked(lines)| == if |records| <= MaxShown then |records| else MaxShown
    ensures multiset(Ranked(lines)) <= multiset(records)
    ensures forall x, y :: x in Ranked(lines) && y in multiset(records) - multiset(Ranked(lines)) ==> x.score <= y.score
  {
    assert Ranked(lines) == Top(records);
    TopAreLowest(records);
  }

  lemma TopAreLowest(records: seq<Record>)
    ensures |Top(records)| == if |records| <= MaxShown then |records| else MaxShown
    ensures multiset(Top(records)) <= multiset(records)
    ensures forall x, y :: x in Top(records) && y in multiset(records) - multiset(Top(records)) ==> x.score <= y.score
  {
    var ys := SortByScore(records);
    var r := Top(records);
    var m := |r|;
    assert r == ys[..m];
    assert ys == ys[..m] + ys[m..];
    assert multiset(ys) == multiset(ys[..m]) + multiset(ys[m..]);
    assert multiset(records) - multiset(r) == multiset(ys[m..]);
    SortedSplit(ys, m);
  }

  /** Filtering by score distributes over concatenation. */
  lemma {:induction false} WithScoreAppend(a: seq<Record>, b: seq<Record>, k: int)
    ensures WithScore(a + b, k) == WithScore(a, k) + WithScore(b, k)
  {
    if a == [] {
      assert a + b == b;
    } else {
      WithScoreAppend(a[1..], b, k);
      assert (a + b)[1..] == a[1..] + b;
      assert (a + b)[0] == a[0];
    }
  }

  /** The entries shown with any one score are the first entries with that
      score in log order: the stable sort keeps ties in the order they were
      read, and cutting to five keeps a prefix of them. */
  lemma RankedKeepsLogOrder(lines: seq<string>, records: seq<Record>, k: int)
    requires ParseAll(lines) == Some(records)
    ensures WithScore(Ranked(lines), k) <= WithScore(records, k)
  {
    assert Ranked(lines) == Top(records);
    TopKeepsOrder(records, k);
  }

  lemma TopKeepsOrder(records: seq<Record>, k: int)
    ensures WithScore(Top(records), k) <= WithScore(records, k)
  {
    var ys := SortByScore(records);
    var r := Top(records);
    assert ys == r + ys[|r|..];
    WithScoreAppend(r, ys[|r|..], k);
    SortIsStable(records, k);
  }

  /** Parsing a log with one more line at the end. */
  lemma ParseAllSnoc(lines: seq<string>, line: string)
    ensures ParseAll(lines + [line]) == ParseStep(ParseAll(lines), line)
  {
    assert (lines + [line])[..|lines|] == lines;
  }

  /** The entries of the lines that give one, in file order, ignoring
      whether some line raises. */
  function EntriesOf(lines: seq<string>): seq<Record> {
    if lines == [] then []
    else EntriesOf(lines[..|lines| - 1]) + LineEntries(lines[|lines| - 1])
  }

  /** The entry a single line gives, if any. */
  function LineEntries(line: string): seq<Record> {
    match ParseLine(line)
    case Entry(r) => [r]
    case _ => []
  }

  /** A log that parses gives exactly the entries of its entry lines, in
      file order, each appended after those read before it. */
  lemma {:induction false} ParseAllIsEntries(lines: seq<string>)
    requires ParseAll(lines).Some?
    ensures ParseAll(lines) == Some(EntriesOf(lines))
  {
    if lines != [] {
      var init := lines[..|lines| - 1];
      var last := lines[|lines| - 1];
      assert ParseAll(lines) == ParseStep(ParseAll(init), last);
      assert ParseAll(init).Some?;
      ParseAllIsEntries(init);
      StepAppends(EntriesOf(init), last);
    }
  }

  /** A reading step that does not raise appends what the line gives. */
  lemma StepAppends(records: seq<Record>, line: string)
    requires ParseStep(Some(records), line).Some?
    ensures ParseStep(Some(records), line) == Some(records + LineEntries(line))
  {
    match ParseLine(line)
    case Skip => assert records + [] == records;
    case Entry(r) =>
    case Malformed =>
  }

  /** The lines read so far grow by one line per step of the reading loop,
      and after the last step they are the whole log. */
  lemma PrefixGrows(lines: seq<string>, k: nat)
    requires k < |lines|
    ensures lines[..k + 1] == lines[..k] + [lines[k]]
  {
  }

  lemma PrefixWhole(lines: seq<string>)
    ensures lines[..|lines|] == lines
  {
  }

  /** Logs that parse alike still parse alike after the same line is added. */
  lemma SameLastLine(a: seq<string>, b: seq<string>, line: string)
    requires ParseAll(a) == ParseAll(b)
    ensures ParseAll(a + [line]) == ParseAll(b + [line])
  {
    ParseAllSnoc(a, line);
    ParseAllSnoc(b, line);
  }

  /** Lines without a ':' are ignored. */
  lemma {:induction false} ColonlessLineSkipped(before: seq<string>, line: string, after: seq<string>)
    requires ':' !in line
    ensures ParseAll(before + [line] + after) == ParseAll(before + after)
  {
    if after == [] {
      ParseAllSnoc(before, line);
      assert before + [line] + after == before + [line];
      assert before + after == before;
    } else {
      var init := after[..|after| - 1];
      var last := after[|after| - 1];
      ColonlessLineSkipped(before, line, init);
      SameLastLine(before + [line] + init, before + init, last);
      SplitLast(after);
      AppendLast(before + [line], init, last);
      AppendLast(before, init, last);
    }
  }

  /** A non-empty log is its front followed by its last line. */
  lemma SplitLast(s: seq<string>)
    requires s != []
    ensures s == s[..|s| - 1] + [s[|s| - 1]]
  {
  }

  lemma AppendLast(front: seq<string>, init: seq<string>, last: string)
    ensures front + (init + [last]) == (front + init) + [last]
  {
  }

  /** The high-score table does not change when a line without ':' is added anywhere. */
  lemma ColonlessLineIgnored(before: seq<string>, line: string, after: seq<string>)
    requires ':' !in line
    ensures Ranked(before + [line] + after) == Ranked(before + after)
  {
    ColonlessLineSkipped(before, line, after);
  }

  /** A line written by `save_highscore` for a name without ':' that does not
      start with whitespace is read back as that very entry, after the
      entries already in the log. */
  lemma SavedLineReadBack(lines: seq<string>, name: string, score: nat)
    requires ':' !in name
    requires name == [] || !IsSpace(name[0])
    ensures ParseAll(lines + [FormatLine(name, score)]) ==
            match ParseAll(lines)
            case None => None
            case Some(records) => Some(records + [Record(name, score)])
  {
    ParseAllSnoc(lines, FormatLine(name, score));
    ParseFormatRoundTrip(name, score);
  }

  /** A name containing ':' writes a line with two colons; from then on every
      read of the log gives an empty table, whatever is appended later. */
  lemma ColonInNameEmptiesRanking(lines: seq<string>, name: string, score: nat, later: seq<string>)
    requires ':' in name
    ensures Ranked(lines + [FormatLine(name, score)] + later) == []
  {
    var line := FormatLine(name, score);
    var whole := lines + [line] + later;
    assert multiset(line)[':'] >= 2 by {
      assert multiset(line) == multiset(name) + multiset{':'} + multiset(NatToString(score));
    }
    assert whole[|lines|] == line;
    MalformedLineEmptiesRanking(whole, |lines|);
  }

  /** The high-score file. `readable` and `writable` stand for whether
      opening it for reading or appending succeeds; a failed open raises,
      which the game catches. */
  class HighscoreLog {
    var lines: seq<string>
    const readable: bool
    const writable: bool

    constructor (lines: seq<string>, readable: bool, writable: bool)
      ensures this.lines == lines && this.readable == readable && this.writable == writable
    {
      this.lines := lines;
      this.readable := readable;
      this.writable := writable;
    }

    /** `save_highscore`: appends the line `username:score`, or leaves the
        log as it was when the file cannot be opened (`ok` is false and the
        game shows the error). */
    method SaveHighscore(username: string, score: nat) returns (ok: bool)
      modifies this
      ensures ok == writable
      ensures lines == if ok then old(lines) + [FormatLine(username, score)] else old(lines)
    {
      ok := writable;
      if ok {
        lines := lines + [FormatLine(username, score)];
      }
    }

    /** `load_highscores`: collects the entries line by line, stopping with
        an empty result at the first line that raises, then sorts them by
        score and keeps the first five. */
    method LoadHighscores() returns (highscores: seq<Record>)
      ensures highscores == if readable then Ranked(lines) else []
    {
      if !readable {
        return [];
      }
      var entries: seq<Record> := [];
      ghost var read: seq<string> := [];
      var k := 0;
      while k < |lines|
        invariant 0 <= k <= |lines| && read == lines[..k]
        invariant ParseAll(read) == Some(entries)
      {
        var line := lines[k];
        ParseAllSnoc(read, line);
        PrefixGrows(lines, k);
        match ParseLine(line) {
          case Skip =>
          case Entry(r) =>
            entries := entries + [r];
          case Malformed =>
            MalformedLineEmptiesRanking(lines, k);
            return [];
        }
        read := read + [line];
        k := k + 1;
      }
      PrefixWhole(lines);
      RankedOfParsed(lines, entries);
      highscores := Top(entries);
    }
  }
}

=== FILE: ScoreText.dfy ===
/**
 * The text format of one high-score line, `name:score`, and the pieces of
 * Python's string handling that write and read it: `str(n)` for a
 * non-negative score, `str.strip()`, `str.split(":")` and `int()`.
 */
module ScoreText {
  import opened Wrappers

  /** One parsed high-score entry, Python's tuple `(name, int(score))`. */
  datatype Record = Record(name: string, score: int)

  /** What reading one log line yields: the line has no ':' and is skipped,
      it gives an entry, or it raises (too many ':' or a bad score). */
  datatype LineParse = Skip | Entry(record: Record) | Malformed

  /** The characters Python's `str.isspace` accepts, which `str.strip()`
      removes. */
  predicate IsSpace(c: char) {
    || ('\t' <= c <= '\r')
    || ('\U{1C}' <= c <= ' ')
    || c == '\U{85}' || c == '\U{A0}' || c == '\U{1680}'
    || ('\U{2000}' <= c <= '\U{200A}')
    || c == '\U{2028}' || c == '\U{2029}' || c == '\U{202F}' || c == '\U{205F}'
    || c == '\U{3000}'
  }

  /** The whitespace `int()` tolerates around a number: an ASCII character
      counts only if C's `isspace` accepts it, so the separators U+001C to
      U+001F, which `str.isspace` accepts, make `int()` raise; every other
      Unicode space is accepted. */
  predicate IntSpace(c: char) {
    IsSpace(c) && !('\U{1C}' <= c <= '\U{1F}')
  }

  predicate IsDigit(c: char) {
    '0' <= c <= '9'
  }

  predicate AllDigits(s: string) {
    forall i :: 0 <= i < |s| ==> IsDigit(s[i])
  }

  /** Drops the leading characters that `space` accepts (`str.lstrip()`). */
  function StripStart(s: string, space: char -> bool): (r: string)
    ensures |r| <= |s| && r == s[|s| - |r|..]
    ensures forall i :: 0 <= i < |s| - |r| ==> space(s[i])
    ensures r == [] || !space(r[0])
  {
    if s != [] && space(s[0]) then
      var r := StripStart(s[1..], space);
      assert forall i :: 1 <= i < |s| ==> s[i] == s[1..][i - 1];
      r
    else s
  }

  /** Drops the trailing characters that `space` accepts (`str.rstrip()`). */
  function StripEnd(s: string, space: char -> bool): (r: string)
    ensures |r| <= |s| && r == s[..|r|]
    ensures forall i :: |r| <= i < |s| ==> space(s[i])
    ensures r == [] || !space(r[|r| - 1])
  {
    if s != [] && space(s[|s| - 1]) then StripEnd(s[..|s| - 1], space) else s
  }

  /** Drops the characters that `space` accepts at both ends: what is left
      starts and ends with a character it rejects. */
  function Trim(s: string, space: char -> bool): (r: string)
    ensures r == [] || (!space(r[0]) && !space(r[|r| - 1]))
  {
    var t := StripStart(s, space);
    var r := StripEnd(t, space);
    assert r != [] ==> r[0] == t[0];
    r
  }

  /** `Trim` returns the middle of `s` between a leading and a trailing
      run of spaces: exactly the surrounding spaces go. */
  lemma TrimSplit(s: string, space: char -> bool) returns (pre: string, post: string)
    ensures s == pre + Trim(s, space) + post
    ensures forall i :: 0 <= i < |pre| ==> space(pre[i])
    ensures forall i :: 0 <= i < |post| ==> space(post[i])
  {
    var t := StripStart(s, space);
    pre := StripStartSplit(s, space);
    post := StripEndSplit(t, space);
    assert Trim(s, space) == StripEnd(t, space);
    Regroup3(pre, Trim(s, space), post);
  }

  /** Concatenation regrouped. */
  lemma Regroup3(a: string, b: string, c: string)
    ensures a + (b + c) == a + b + c
  {
  }

  /** What `StripStart` drops is a run of spaces in front of what it keeps. */
  lemma StripStartSplit(s: string, space: char -> bool) returns (pre: string)
    ensures s == pre + StripStart(s, space)
    ensures forall i :: 0 <= i < |pre| ==> space(pre[i])
  {
    pre := s[..|s| - |StripStart(s, space)|];
  }

  /** What `StripEnd` drops is a run of spaces after what it keeps. */
  lemma StripEndSplit(t: string, space: char -> bool) returns (post: string)
    ensures t == StripEnd(t, space) + post
    ensures forall i :: 0 <= i < |post| ==> space(post[i])
  {
    var r := StripEnd(t, space);
    post := t[|r|..];
    forall i | 0 <= i < |post| ensures space(post[i]) {
      assert post[i] == t[|r| + i];
    }
  }

  /** `Trim` only drops spaces: every character of `s` is a space or is
      kept, and nothing else is kept. */
  lemma TrimKeeps(s: string, space: char -> bool)
    ensures forall c :: c in Trim(s, space) ==> c in s
    ensures forall i :: 0 <= i < |s| ==> space(s[i]) || s[i] in Trim(s, space)
  {
    var pre, post := TrimSplit(s, space);
    var r := Trim(s, space);
    forall i | 0 <= i < |s| && !space(s[i]) ensures s[i] in r {
      NonSpaceInMiddle(pre, r, post, i, space);
    }
  }

  /** A non-space character of `pre + mid + post`, where `pre` and `post`
      are all spaces, is a character of `mid`. */
  lemma NonSpaceInMiddle(pre: string, mid: string, post: string, i: int, space: char -> bool)
    requires forall j :: 0 <= j < |pre| ==> space(pre[j])
    requires forall j :: 0 <= j < |post| ==> space(post[j])
    requires 0 <= i < |pre + mid + post| && !space((pre + mid + post)[i])
    ensures (pre + mid + post)[i] in mid
  {
    var s := pre + mid + post;
    if |pre| <= i < |pre| + |mid| {
      assert s[i] == mid[i - |pre|];
    }
  }

  /** A string whose ends are not spaces is left as it is by `Trim`. */
  lemma {:induction false} TrimTrimmed(s: string, space: char -> bool)
    requires s == [] || (!space(s[0]) && !space(s[|s| - 1]))
    ensures Trim(s, space) == s
  {
    assert StripStart(s, space) == s;
  }

  /** `str.strip()`: the result starts and ends with a non-space character
      and keeps every colon of `s`. */
  function Strip(s: string): (r: string)
    ensures r == [] || (!IsSpace(r[0]) && !IsSpace(r[|r| - 1]))
    ensures multiset(r)[':'] == multiset(s)[':']
  {
    StripKeepsColons(s);
    Trim(s, IsSpace)
  }

  /** `str.strip()` returns the middle of `s` between a leading and a
      trailing run of whitespace: only the surrounding whitespace goes. */
  lemma StripSplit(s: string) returns (pre: string, post: string)
    ensures s == pre + Strip(s) + post
    ensures forall i :: 0 <= i < |pre| ==> IsSpace(pre[i])
    ensures forall i :: 0 <= i < |post| ==> IsSpace(post[i])
  {
    pre, post := TrimSplit(s, IsSpace);
  }

  lemma StripKeepsColons(s: string)
    ensures multiset(Trim(s, IsSpace))[':'] == multiset(s)[':']
  {
    StripStartKeepsColons(s);
    StripEndKeepsColons(StripStart(s, IsSpace));
  }

  lemma StripStartKeepsColons(s: string)
    ensures multiset(StripStart(s, IsSpace))[':'] == multiset(s)[':']
  {
    var t := StripStart(s, IsSpace);
    var lead := s[..|s| - |t|];
    SpacesHoldNoColon(lead);
    assert s == lead + t;
    assert multiset(s) == multiset(lead) + multiset(t);
  }

  lemma StripEndKeepsColons(t: string)
    ensures multiset(StripEnd(t, IsSpace))[':'] == multiset(t)[':']
  {
    var r := StripEnd(t, IsSpace);
    var trail := t[|r|..];
    SpacesHoldNoColon(trail);
    assert t == r + trail;
    assert multiset(t) == multiset(r) + multiset(trail);
  }

  /** A stretch made only of whitespace holds no colon. */
  lemma SpacesHoldNoColon(p: string)
    requires forall i :: 0 <= i < |p| ==> IsSpace(p[i])
    ensures multiset(p)[':'] == 0
  {
    assert forall i :: 0 <= i < |p| ==> p[i] != ':';
    assert ':' !in p;
  }

  /** A string that neither starts nor ends with whitespace is its own `strip()`. */
  lemma {:induction false} StripTrimmed(s: string)
    requires s == [] || (!IsSpace(s[0]) && !IsSpace(s[|s| - 1]))
    ensures Strip(s) == s
  {
    TrimTrimmed(s, IsSpace);
  }
  /** The inverse of `Split`: the parts glued back with ':' (`":".join(parts)`). */
  function Join(parts: seq<string>): string {
    if |parts| == 0 then []
    else if |parts| == 1 then parts[0]
    else parts[0] + ":" + Join(parts[1..])
  }

  /** `s.split(":")`: the pieces of `s` between its colons. */
  function Split(s: string): (parts: seq<string>)
    ensures |parts| >= 1
  {
    if s == [] then [[]]
    else
      var rest := Split(s[1..]);
      if s[0] == ':' then [[]] + rest
      else [[s[0]] + rest[0]] + rest[1..]
  }

  /** `s.split(":")` has one part more than `s` has colons. */
  lemma {:induction false} SplitCount(s: string)
    ensures |Split(s)| == multiset(s)[':'] + 1
  {
    if s != [] {
      SplitCount(s[1..]);
      assert s == [s[0]] + s[1..];
      assert multiset(s) == multiset{s[0]} + multiset(s[1..]);
    }
  }

  /** No part of `s.split(":")` holds a colon. */
  lemma {:induction false} SplitNoColon(s: string)
    ensures forall i :: 0 <= i < |Split(s)| ==> ':' !in Split(s)[i]
  {
    if s != [] {
      SplitNoColon(s[1..]);
      var rest := Split(s[1..]);
      if s[0] != ':' {
        assert ':' !in [s[0]] + rest[0];
      }
    }
  }

  /** Joining the parts of `s.split(":")` with ':' gives `s` back. */
  lemma {:induction false} SplitJoin(s: string)
    ensures Join(Split(s)) == s
  {
    if s != [] {
      SplitJoin(s[1..]);
      var rest := Split(s[1..]);
      assert s == [s[0]] + s[1..];
      if s[0] == ':' {
        assert ([[]] + rest)[1..] == rest;
      } else {
        JoinFirst(s[0], rest);
      }
    }
  }

  /** Prefixing the first part with a character prefixes the joined string with it. */
  lemma {:induction false} JoinFirst(c: char, parts: seq<string>)
    requires |parts| >= 1
    ensures Join([[c] + parts[0]] + parts[1..]) == [c] + Join(parts)
  {
    var q := [[c] + parts[0]] + parts[1..];
    if |parts| > 1 {
      assert q[1..] == parts[1..];
      var tail := Join(parts[1..]);
      calc {
        Join(q);
        ([c] + parts[0]) + ":" + tail;
        [c] + (parts[0] + ":" + tail);
      }
    }
  }

  /** Two strings split at their only colon have the same halves. */
  lemma {:induction false} OnlyColonSplit(a: string, b: string, c: string, d: string)
    requires ':' !in a && ':' !in c
    requires a + ":" + b == c + ":" + d
    ensures a == c && b == d
  {
    var s := a + ":" + b;
    assert s == c + ":" + d;
    assert s[|a|] == ':' && s[|c|] == ':';
    assert forall i :: 0 <= i < |a| ==> s[i] == a[i] != ':';
    assert forall i :: 0 <= i < |c| ==> s[i] == c[i] != ':';
    assert |a| == |c|;
    assert a == s[..|a|] == c;
    assert b == s[|a| + 1..] == d;
  }

  function DigitChar(d: nat): char
    requires d < 10
  {
    ('0' as int + d) as char
  }

  /** The number a run of decimal digits denotes (leading zeros allowed, as `int()` allows them). */
  function DigitsValue(ds: string): nat
    requires AllDigits(ds)
  {
    if ds == [] then 0
    else 10 * DigitsValue(ds[..|ds| - 1]) + (ds[|ds| - 1] as int - '0' as int)
  }

  /** `str(n)` for a non-negative integer: non-empty decimal digits, no
      leading zero except for 0 itself, denoting `n`. */
  function NatToString(n: nat): (s: string)
    ensures s != [] && AllDigits(s)
    ensures s[0] != '0' || s == "0"
    ensures DigitsValue(s) == n
  {
    if n < 10 then [DigitChar(n)]
    else
      var p := NatToString(n / 10);
      var s := p + [DigitChar(n % 10)];
      assert s[..|s| - 1] == p;
      s
  }

  /** Python's `int()` on a string: surrounding whitespace, an optional
      sign, then at least one decimal digit; anything else raises (`None`).
      A string it accepts holds only such characters and at least one digit. */
  function ParseInt(s: string): (r: Option<int>)
    ensures r.Some? ==> forall i :: 0 <= i < |s| ==> IntSpace(s[i]) || IsDigit(s[i]) || s[i] == '+' || s[i] == '-'
    ensures r.Some? ==> exists i :: 0 <= i < |s| && IsDigit(s[i])
  {
    var t := Trim(s, IntSpace);
    TrimKeeps(s, IntSpace);
    var r := ParseSigned(t);
    assert r.Some? ==> t[|t| - 1] in t;
    r
  }

  /** `int()` once the whitespace is gone: an optional sign and digits. */
  function ParseSigned(t: string): (r: Option<int>)
    ensures r.Some? ==> forall c :: c in t ==> IsDigit(c) || c == '+' || c == '-'
    ensures r.Some? ==> t != [] && IsDigit(t[|t| - 1])
    ensures r.Some? ==> (IsDigit(t[0]) || t[0] == '+' || t[0] == '-') && AllDigits(t[1..])
  {
    var digits := if t != [] && (t[0] == '+' || t[0] == '-') then t[1..] else t;
    if digits == [] || !AllDigits(digits) then None
    else
      assert forall c :: c in t ==> c == t[0] || c in digits;
      var v: int := DigitsValue(digits);
      Some(if t[0] == '-' then -v else v)
  }

  /** Whitespace `int()` tolerates, then an optional sign, then at least
      one digit, then whitespace again: `int()` accepts it and returns the
      value of the digits, negated after a minus sign. CPython's limit of
      4300 digits is not modelled: digit strings of any length are read. */
  lemma ParseIntAccepts(pre: string, sign: string, ds: string, post: string)
    requires forall i :: 0 <= i < |pre| ==> IntSpace(pre[i])
    requires forall i :: 0 <= i < |post| ==> IntSpace(post[i])
    requires sign == "" || sign == "+" || sign == "-"
    requires ds != [] && AllDigits(ds)
    ensures ParseInt(pre + sign + ds + post) ==
            Some(if sign == "-" then -(DigitsValue(ds) as int) else DigitsValue(ds) as int)
  {
    var x := sign + ds;
    assert pre + sign + ds + post == pre + x + post;
    assert x[|x| - 1] == ds[|ds| - 1];
    DigitNotSpace(ds[|ds| - 1]);
    if sign == [] {
      assert x == ds;
      DigitNotSpace(ds[0]);
    } else {
      assert x[0] == sign[0];
    }
    TrimAround(pre, x, post, IntSpace);
    ParseSignedAccepts(sign, ds);
  }

  lemma DigitNotSpace(c: char)
    requires IsDigit(c)
    ensures !IntSpace(c) && !IsSpace(c)
  {
  }

  /** `int()` without whitespace: an optional sign and digits are read as
      the digits' value, negated after a minus sign. */
  lemma ParseSignedAccepts(sign: string, ds: string)
    requires sign == "" || sign == "+" || sign == "-"
    requires ds != [] && AllDigits(ds)
    ensures ParseSigned(sign + ds) ==
            Some(if sign == "-" then -(DigitsValue(ds) as int) else DigitsValue(ds) as int)
  {
    var x := sign + ds;
    if sign == [] {
      assert x == ds;
    } else {
      assert x[1..] == ds;
    }
  }

  /** Spaces on either side of a stretch whose ends are not spaces are
      exactly what `Trim` drops. */
  lemma TrimAround(pre: string, x: string, post: string, space: char -> bool)
    requires forall i :: 0 <= i < |pre| ==> space(pre[i])
    requires forall i :: 0 <= i < |post| ==> space(post[i])
    requires x != [] && !space(x[0]) && !space(x[|x| - 1])
    ensures Trim(pre + x + post, space) == x
  {
    assert pre + x + post == pre + (x + post);
    StripStartPast(pre, x + post, space);
    StripEndPast(x, post, space);
  }

  /** Every string `int()` accepts has that form: whitespace, an optional
      sign, digits, whitespace. With `ParseIntAccepts` this pins down both
      which strings `int()` accepts and the value it returns. */
  lemma ParseIntShape(s: string) returns (pre: string, sign: string, ds: string, post: string)
    requires ParseInt(s).Some?
    ensures s == pre + sign + ds + post
    ensures forall i :: 0 <= i < |pre| ==> IntSpace(pre[i])
    ensures forall i :: 0 <= i < |post| ==> IntSpace(post[i])
    ensures sign == "" || sign == "+" || sign == "-"
    ensures ds != [] && AllDigits(ds)
  {
    var t := Trim(s, IntSpace);
    pre, post := TrimSplit(s, IntSpace);
    assert ParseSigned(t).Some?;
    sign, ds := ParseSignedShape(t);
    Regroup(pre, sign, ds, post);
  }

  lemma Regroup(pre: string, sign: string, ds: string, post: string)
    ensures pre + sign + ds + post == pre + (sign + ds) + post
  {
  }

  /** Every string `int()` accepts once the whitespace is gone is an
      optional sign followed by at least one digit. */
  lemma ParseSignedShape(t: string) returns (sign: string, ds: string)
    requires ParseSigned(t).Some?
    ensures t == sign + ds
    ensures sign == "" || sign == "+" || sign == "-"
    ensures ds != [] && AllDigits(ds)
  {
    sign := if t[0] == '+' || t[0] == '-' then t[..1] else [];
    ds := t[|sign|..];
    assert t == sign + ds;
  }

  /** Whitespace in front of a string that starts with a non-space is all
      that `StripStart` drops. */
  lemma {:induction false} StripStartPast(pre: string, x: string, space: char -> bool)
    requires forall i :: 0 <= i < |pre| ==> space(pre[i])
    requires x != [] && !space(x[0])
    ensures StripStart(pre + x, space) == x
  {
    if pre == [] {
      assert pre + x == x;
    } else {
      assert (pre + x)[1..] == pre[1..] + x;
      StripStartPast(pre[1..], x, space);
    }
  }

  /** Whitespace after a string that ends with a non-space is all that
      `StripEnd` drops. */
  lemma {:induction false} StripEndPast(x: string, post: string, space: char -> bool)
    requires forall i :: 0 <= i < |post| ==> space(post[i])
    requires x != [] && !space(x[|x| - 1])
    ensures StripEnd(x + post, space) == x
  {
    if post == [] {
      assert x + post == x;
    } else {
      var front := post[..|post| - 1];
      assert (x + post)[..|x + post| - 1] == x + front;
      StripEndPast(x, front, space);
    }
  }

  /** `int(str(n)) == n` for every non-negative `n`. */
  lemma {:induction false} ParseIntOfString(n: nat)
    ensures ParseInt(NatToString(n)) == Some(n)
  {
    var s := NatToString(n);
    assert IsDigit(s[0]) && IsDigit(s[|s| - 1]);
    TrimTrimmed(s, IntSpace);
  }

  /** `int()` reads an optional minus sign: `int("-" + str(n)) == -n`. */
  lemma {:induction false} ParseIntNegative(n: nat)
    ensures ParseInt("-" + NatToString(n)) == Some(-(n as int))
  {
    var d := NatToString(n);
    var s := "-" + d;
    assert ParseSigned(s) == Some(-(n as int)) by {
      assert s[1..] == d;
    }
    assert IsDigit(d[|d| - 1]) && s[|s| - 1] == d[|d| - 1];
    TrimTrimmed(s, IntSpace);
  }

  /** `str.strip()` removes the separator U+001C, but `int()` rejects it:
      for digits `d`, `("\x1c" + d).strip() == d` while `int("\x1c" + d)`
      raises. */
  lemma SeparatorRejectedByInt(d: string)
    requires d != [] && AllDigits(d)
    ensures Strip("\U{1C}" + d) == d
    ensures ParseInt("\U{1C}" + d) == None
  {
    SeparatorStripped(d);
    SeparatorNotInt(d);
  }

  lemma {:induction false} SeparatorStripped(d: string)
    requires d != [] && AllDigits(d)
    ensures Strip("\U{1C}" + d) == d
  {
    var s := "\U{1C}" + d;
    assert IsSpace(s[0]) && s[1..] == d;
    assert !IsSpace(d[0]) && !IsSpace(d[|d| - 1]);
    assert StripStart(s, IsSpace) == StripStart(d, IsSpace) == d;
  }

  lemma {:induction false} SeparatorNotInt(d: string)
    requires d != [] && AllDigits(d)
    ensures ParseInt("\U{1C}" + d) == None
  {
    var s := "\U{1C}" + d;
    assert !IntSpace(s[0]) && !IsDigit(s[0]);
    assert s[|s| - 1] == d[|d| - 1] && IsDigit(d[|d| - 1]);
    TrimTrimmed(s, IntSpace);
  }

  /** The line `save_highscore` writes: `f"{username}:{score}"`. It is the
      name, then a ':' that adds one colon to those of the name, then
      exactly `str(score)`. */
  function FormatLine(name: string, score: nat): (line: string)
    ensures |line| > |name| + 1 && line[..|name|] == name && line[|name|] == ':'
    ensures AllDigits(line[|name| + 1..])
    ensures line[|name| + 1..] == NatToString(score)
    ensures multiset(line)[':'] == multiset(name)[':'] + 1
  {
    var digits := NatToString(score);
    var line := name + ":" + digits;
    assert line[|name| + 1..] == digits;
    assert ':' !in digits by {
      assert forall i :: 0 <= i < |digits| ==> IsDigit(digits[i]) && digits[i] != ':';
    }
    assert multiset(line) == multiset(name) + multiset{':'} + multiset(digits);
    line
  }

  /** `int()` reads the text after the name's colon back as the score. */
  lemma FormattedScoreReadsBack(name: string, score: nat)
    ensures ParseInt(FormatLine(name, score)[|name| + 1..]) == Some(score as int)
  {
    assert FormatLine(name, score)[|name| + 1..] == NatToString(score);
    ParseIntOfString(score);
  }

  /** One line as `load_highscores` treats it: skipped without ':', otherwise
      stripped, split on ':' into exactly a name and a score, the score read
      with `int()`. A line with two or more colons always raises. */
  function ParseLine(line: string): (p: LineParse)
    ensures p.Skip? <==> ':' !in line
    ensures multiset(line)[':'] >= 2 ==> p.Malformed?
  {
    if ':' !in line then Skip
    else
      var text := Strip(line);
      SplitCount(text);
      var parts := Split(text);
      if |parts| != 2 then Malformed
      else match ParseInt(parts[1])
        case None => Malformed
        case Some(v) => Entry(Record(parts[0], v))
  }

  /** A line with exactly one colon and no surrounding whitespace gives the
      entry of the name before the colon and `int()` of the text after it,
      and raises when `int()` rejects that text. */
  lemma {:induction false} ParseOneColonLine(name: string, text: string)
    requires ':' !in name && ':' !in text
    requires name == [] || !IsSpace(name[0])
    requires text == [] || !IsSpace(text[|text| - 1])
    ensures ParseLine(name + ":" + text) ==
            match ParseInt(text)
            case None => Malformed
            case Some(v) => Entry(Record(name, v))
  {
    var line := name + ":" + text;
    assert line[|name|] == ':';
    assert line[0] == if name == [] then ':' else name[0];
    assert line[|line| - 1] == if text == [] then ':' else text[|text| - 1];
    StripTrimmed(line);
    SplitAtOnlyColon(name, text);
    ParseLineParts(line, name, text);
  }

  /** A line with a ':' whose stripped text splits into two parts gives the
      entry of the first part and `int()` of the second, or raises. */
  lemma ParseLineParts(line: string, name: string, text: string)
    requires ':' in line && Split(Strip(line)) == [name, text]
    ensures ParseLine(line) ==
            match ParseInt(text)
            case None => Malformed
            case Some(v) => Entry(Record(name, v))
  {
  }

  /** Reading back a written line gives the name and score that were written,
      for a name that has no ':' and does not start with whitespace (the
      welcome screen strips the name it accepts). */
  lemma {:induction false} ParseFormatRoundTrip(name: string, score: nat)
    requires ':' !in name
    requires name == [] || !IsSpace(name[0])
    ensures ParseLine(FormatLine(name, score)) == Entry(Record(name, score))
  {
    var digits := NatToString(score);
    var line := name + ":" + digits;
    assert FormatLine(name, score) == line;
    assert ParseLine(line) == Entry(Record(name, score)) by {
      assert ':' !in digits by {
        assert forall i :: 0 <= i < |digits| ==> IsDigit(digits[i]) && digits[i] != ':';
      }
      assert IsDigit(digits[|digits| - 1]);
      ParseOneColonLine(name, digits);
      ParseIntOfString(score);
    }
  }

  /** `str.split(":")` of a string with exactly one colon gives the two sides. */
  lemma {:induction false} SplitAtOnlyColon(a: string, b: string)
    requires ':' !in a && ':' !in b
    ensures Split(a + ":" + b) == [a, b]
  {
    var s := a + ":" + b;
    assert multiset(s) == multiset(a) + multiset{':'} + multiset(b);
    SplitCount(s);
    SplitNoColon(s);
    SplitJoin(s);
    var parts := Split(s);
    assert |parts| == 2;
    assert Join(parts[1..]) == parts[1];
    assert parts[0] + ":" + parts[1] == Join(parts) == s;
    OnlyColonSplit(parts[0], parts[1], a, b);
  }
}

=== FILE: Wrappers.dfy ===
/** An optional value: Python's `None` or a present value. */
module Wrappers {

  datatype Option<+T> = None | Some(value: T)
}
